=== FILE: README.md ===
# Session and page-state model of the student-organization admin frontend

This project models, in Dafny, the decision logic of a small Next.js admin
frontend for a university student-organization system: the session gate and
login flow of the admin login screen, the authenticated API client, the admin
sidebar, the user and organization screens, and the landing page's logout.

The browser is reduced to a `Window` object (module `Browser`) holding the
`localStorage` contents as a map, the list of routes pushed through the
router, the list of requests handed to `fetch`, and a count of alerts. How a
request ends is a parameter of the handler that sends it (`Response<T>`: ok
with a parsed body, ok with an unparsable body, not ok, or rejected), and the
JWT decoder is a parameter `decode` that yields `None` where the library
throws. `API_BASE_URL` is the parameter `apiBase`/`base`.

Modules, one per source file plus two shared ones, except that
`src/app/admin/login/page.tsx` is modelled by two modules, `Session` for its
decisions and `LoginPage` for its handlers:

- `Wrappers`: `Option` and `Result`.
- `Browser`: storage, `Removed` (`removeItem`), truthiness of a stored value,
  requests, responses and the `Window` class.
- `Api` (`src/lib/api.ts`): `GetToken`, the authenticated request and header
  merge, `FetchWithAuth`, the three user wrappers, the decimal rendering of ids.
- `Session` (the decisions of `src/app/admin/login/page.tsx`): the gate and the
  post-login flow as functions from storage (and response) to effects.
- `LoginPage`, `Sidebar`, `UsersPage`, `OrganizationPage`, `LandingPage`: each
  screen as a class whose handlers are methods updating its fields and the
  `Window`, step by step as the source does.

Behaviour of the code that the model keeps as written:

- The gate on the login screen sends an `admin` token to `/admin` and a
  `student` token to `/`, but a successful login sends a student to
  `/dashboard`: two different role mappings (`Session.RoutesDifferOnlyForStudents`).
- The gate never navigates to the login screen itself; it only clears a bad
  token and lets the login form show.
- After an ok login, the token is stored before it is decoded, and a decoding
  failure is only alerted: the undecodable token stays stored until a later
  gate run removes it (`Session.LoginThenGate`).
- Every token guard uses JavaScript truthiness, so a stored empty string is
  treated as no token, and the gate leaves it in storage.
- Removing an organization row does not look at the response status: any
  response that arrives removes the row.
- The admin screens check only that a token is present; no screen restricts
  access by role.

## Model

| member | source | states |
|---|---|---|
| `Browser.Removed` | src/app/page.tsx:10 | removing the token key leaves it absent, keeps every other key and value, and changes nothing when the key was not there |
| `Browser.StorageRoundTrip` | src/app/admin/login/page.tsx:53-64 | reading the token after it is stored gives the stored value and after it is removed gives nothing; other keys read as before; removing twice is removing once |
| `Session.Gate` | src/app/admin/login/page.tsx:15-34 | with `Truthy` (an `if (token)` guard passes exactly for a present, non-empty value), the gate pushes `/admin` exactly when the stored truthy token decodes to role `admin`, `/` exactly for role `student`, no other route; it never alerts; it removes the token exactly when a truthy token fails to decode or has any other role, and otherwise leaves storage as it was (so an absent or empty token changes nothing) |
| `Session.GateIdempotent` | src/app/admin/login/page.tsx:15-34 | running the gate on the storage it leaves behind gives the same storage and the same route again |
| `Session.GateRoute` | src/app/admin/login/page.tsx:22-28 | the gate recognises exactly `admin` (sent to `/admin`) and `student` (sent to `/`), and never routes to the login screen |
| `Session.LoginRoute` | src/app/admin/login/page.tsx:58-65 | a login recognises exactly `admin` (sent to `/admin`) and `student` (sent to `/dashboard`), and never routes to the login screen |
| `Session.RoutesDifferOnlyForStudents` | src/app/admin/login/page.tsx:22-28 | the gate's and the login's role mappings recognise the same roles and disagree only on `student` |
| `Session.Login` | src/app/admin/login/page.tsx:36-69 | a response that is not ok, or that fails, stores nothing, pushes nothing and alerts; after an ok response `admin` pushes `/admin` and `student` `/dashboard` with the token stored; any other role alerts and leaves no token at all; a token that does not decode stays stored behind an alert; an alert is shown exactly when no route is pushed |
| `Session.LoginThenGate` | src/app/admin/login/page.tsx:16-31 | after an ok login with a non-empty token, a later gate run routes a recognised role by the gate's mapping and removes a stored token that does not decode; an empty token is kept and ignored |
| `LoginPage.LoginScreen.constructor` | src/app/admin/login/page.tsx:11-13 | the form starts empty and the screen starts checking the token, so it first shows only the loading placeholder (`ShowsLoading()`, the `if (isCheckingToken)` of lines 71-73) |
| `LoginPage.LoginScreen.CheckToken` | src/app/admin/login/page.tsx:15-34 | the mount effect leaves storage and the route log as `Session.Gate` decides, and always ends with `isCheckingToken` false, so the loading view is no longer shown (`!ShowsLoading()`) |
| `LoginPage.LoginScreen.HandleLogin` | src/app/admin/login/page.tsx:36-69 | submitting leaves storage, the route log and the alert count as `Session.Login` decides |
| `Api.GetTokenAfterSave` | src/lib/api.ts:3-9 | once a token is stored, `GetToken` (`getToken`, `null` without a window) reads it back, and it is `Truthy`, so the authenticated client accepts it, exactly when it is not empty |
| `Api.GetTokenAfterClear` | src/lib/api.ts:3-9 | once the token is removed, `GetToken` reads nothing and the authenticated client refuses to send |
| `Api.AuthHeaders` | src/lib/api.ts:13-17 | the headers keep every caller header except that `Authorization` is always `Bearer <token>` and `Content-Type` always `application/json`, whatever the caller set; absent caller headers count as none |
| `Api.AuthRequest` | src/lib/api.ts:11-17 | the URL is the base followed directly by the endpoint, with nothing inserted; method and body are passed through unchanged; the headers are the merged ones |
| `Api.FetchWithAuth` | src/lib/api.ts:7-19 | with a token that is not `Truthy` (absent or empty) it throws the missing-token error and sends nothing; otherwise it sends exactly the authenticated request once and returns the response whatever its status, throwing only when `fetch` rejects |
| `Api.Checked` | src/lib/api.ts:28-29 | a response yields its body exactly when it is ok and parses; a status that is not ok throws the wrapper's message; a rejected fetch or an unparsable body throws |
| `Api.GetUsers` | src/lib/api.ts:21-30 | one `GET <base>/user` with the bearer header is sent, with no retry, and its result is the checked response |
| `Api.CreateUser` | src/lib/api.ts:32-44 | one `POST <base>/user` with the JSON form and both headers is sent, with no retry, and its result is the checked response |
| `Api.DeleteUser` | src/lib/api.ts:46-56 | one `DELETE <base>/user/<id>` with the bearer header is sent, with no retry, and its result is the checked response |
| `Api.NatToString` | src/lib/api.ts:47 | the rendering of a number in the URL is a non-empty string of digits with no leading zero, one digit long exactly below ten, whose decimal value is the number |
| `Api.IntToString` | src/lib/api.ts:47 | the rendering of an id starts with `-` exactly for a negative id, is digits otherwise, and its signed decimal value is the id |
| `Api.NatToStringInjective` | src/lib/api.ts:47 | two different numbers never render the same |
| `Api.IntToStringInjective` | src/lib/api.ts:47 | two different ids never render the same |
| `Api.UsersRequest` | src/lib/api.ts:22-26 | the user list is requested from `<base>/user` with the default method, no body and the bearer header as its only header |
| `Api.CreateUserRequest` | src/lib/api.ts:33-40 | a user is created by a `POST` to `<base>/user` with exactly the JSON and bearer headers and a body of exactly the three form fields |
| `Api.DeleteUserRequest` | src/lib/api.ts:47-52 | a user is deleted by a `DELETE` to `<base>/user/` followed by the rendering of its id, with no body and the bearer header as its only header |
| `Api.DeleteUserTargetsOneUser` | src/lib/api.ts:47 | two deletions target the same URL only for the same user id |
| `Sidebar.StaticItemsActiveAtMostOnce` | src/components/sidebar.tsx:104-106 | since `IsActive` (`pathname === link`) means the path equals the link exactly, no path marks two static entries active, and Manage Members, which has no link, is never active |
| `Sidebar.MemberChildren` | src/components/sidebar.tsx:110-116 | Manage Members has one child per organization, in order, labelled with the organization's name and linking to `/admin/members/` followed by its slug |
| `Sidebar.MemberChildActiveAtMostOnce` | src/components/sidebar.tsx:156 | when organization slugs are distinct, no path marks two member links `IsActive` |
| `Sidebar.Toggled` | src/components/sidebar.tsx:52-54 | toggling a label negates whether it is open, where a missing entry counts as closed, and leaves every other label's entry as it was |
| `Sidebar.ToggleTwice` | src/components/sidebar.tsx:52-54 | toggling the same label twice restores whether it is open; the map comes back unchanged exactly when the label already had an entry |
| `Sidebar.SidebarPanel.constructor` | src/components/sidebar.tsx:44-48 | the sidebar starts open, with no dropdown open, no confirmation and no organizations |
| `Sidebar.SidebarPanel.ToggleSidebar` | src/components/sidebar.tsx:51 | the sidebar's open flag is negated |
| `Sidebar.SidebarPanel.ToggleDropdown` | src/components/sidebar.tsx:52-54 | the dropdown map becomes the toggled map |
| `Sidebar.SidebarPanel.LoadOrganizations` | src/components/sidebar.tsx:57-69 | a request is made exactly when a truthy token is stored; the organizations are replaced only by a fetched list and otherwise keep their value, so without a token they stay empty; after a fetched list, Manage Members shows one child per fetched organization |
| `Sidebar.SidebarPanel.AskLogout` | src/components/sidebar.tsx:184 | the logout button opens the confirmation |
| `Sidebar.SidebarPanel.CancelLogout` | src/components/sidebar.tsx:204 | the confirmation's cancel button closes it |
| `Sidebar.SidebarPanel.HandleLogout` | src/components/sidebar.tsx:71-74 | the token key is removed and `/login` is pushed |
| `UsersPage.UsersScreen.constructor` | src/app/admin/users/page.tsx:18-26 | the screen starts loading with no users, no modal, no selection and an empty form whose role is `student` |
| `UsersPage.UsersScreen.FetchUsers` | src/app/admin/users/page.tsx:28-41 | without a token it pushes `/login`, sends nothing and leaves `loading` unchanged; with one it sends the user-list request once, replaces the users only on success, alerts on failure, and clears `loading` either way |
| `UsersPage.UsersScreen.HandleAddUser` | src/app/admin/users/page.tsx:47-62 | without a token it only pushes `/login`; a successful create closes the modal, resets student id and password to empty and role to `student`, then reloads the list; a failed create alerts and leaves the form and the modal as they were |
| `UsersPage.UsersScreen.HandleDeleteUser` | src/app/admin/users/page.tsx:65-79 | with no selected user nothing happens at all; without a token it only pushes `/login`; a successful delete of the selected user's id closes the modal and clears the selection, then reloads; a failure alerts and keeps both |
| `UsersPage.UsersScreen.AskDelete` | src/app/admin/users/page.tsx:94-97 | the row's delete button selects that user and opens the confirmation |
| `UsersPage.UsersScreen.CancelDelete` | src/app/admin/users/page.tsx:190-193 | cancelling hides the confirmation and clears the selection |
| `UsersPage.UsersScreen.OpenAddModal` | src/app/admin/users/page.tsx:110 | the Add User button opens the form |
| `UsersPage.UsersScreen.CancelAdd` | src/app/admin/users/page.tsx:164 | the form's cancel button closes it, keeping the typed values |
| `OrganizationPage.WithoutId` | src/app/admin/organization/page.tsx:97 | the kept rows are exactly the old rows whose id differs from the deleted id |
| `OrganizationPage.WithoutIdAppend` | src/app/admin/organization/page.tsx:97 | the filter works piecewise over concatenation, so the kept rows keep their relative order |
| `OrganizationPage.WithoutIdKeepsOthers` | src/app/admin/organization/page.tsx:97 | a list with no row of that id comes back unchanged |
| `OrganizationPage.WithoutIdIdempotent` | src/app/admin/organization/page.tsx:97 | filtering a second time by the same id removes nothing more |
| `OrganizationPage.OrganizationScreen.constructor` | src/app/admin/organization/page.tsx:22-27 | the screen starts loading with no rows, no selection, no modal and no id to delete |
| `OrganizationPage.OrganizationScreen.FetchOrganizations` | src/app/admin/organization/page.tsx:77-89 | a parsed list replaces the rows; a missing token, a status that is not ok, a rejected fetch or an unparsable body alerts and pushes `/login`, with a request sent only when a token was there; `loading` ends false in every case |
| `OrganizationPage.DeleteRequest` | src/app/admin/organization/page.tsx:94-96 | an organization is deleted by a `DELETE` to `<base>/organization/` followed by the rendering of its id, with no body, no caller headers and the authenticated headers |
| `OrganizationPage.OrganizationScreen.HandleDelete` | src/app/admin/organization/page.tsx:91-103 | for an id that is not `IsDeletable` (null or zero) nothing happens; whenever the delete call returns, whatever its status, the rows with that id are removed, the confirmation hides and the id is cleared; when it throws (no token, or a rejected fetch) rows, id and confirmation are unchanged and an alert is shown |
| `OrganizationPage.OrganizationScreen.AskDelete` | src/app/admin/organization/page.tsx:63-66 | the row's delete button remembers its id and opens the confirmation |
| `OrganizationPage.OrganizationScreen.CancelDelete` | src/app/admin/organization/page.tsx:169 | the confirmation's cancel button hides it and keeps the remembered id |
| `OrganizationPage.OrganizationScreen.ShowDetail` | src/app/admin/organization/page.tsx:44-47 | the row's detail button selects that organization and opens the detail view |
| `OrganizationPage.OrganizationScreen.CloseDetail` | src/app/admin/organization/page.tsx:146 | the detail view's close button hides it |
| `OrganizationPage.OrganizationScreen.EditOrganization` | src/app/admin/organization/page.tsx:54-56 | the row's edit button pushes the edit route of that organization's id |
| `OrganizationPage.OrganizationScreen.AddOrganization` | src/app/admin/organization/page.tsx:115 | the add button pushes the add route |
| `LandingPage.LandingScreen.HandleLogout` | src/app/page.tsx:9-12 | the token key is removed, other keys are untouched, storage is unchanged when no token was stored, and `/login` is pushed in every case |

## Left out

- Rendering: JSX, CSS classes, icons, the data tables and the modals as markup. Which children are shown under an open dropdown, and the unused `isDropdown` flag of the sidebar, are presentation only.
- The network and serialization: `fetch`, `res.json()` and `JSON.stringify` are replaced by the `Response` outcome of each request. The login request and the sidebar's organization request use hard-coded local URLs and are not recorded among the sent requests; only requests built from `API_BASE_URL` are.
- The internals of `jwtDecode`, which is the `decode` parameter. A `role` claim that is not a string is covered only as some unrecognised role.
- An ok login body without `access_token`, which the source would store as the string `undefined`; the model's ok body is always the token string.
- React state scheduling and asynchrony: each handler is one atomic step, the list reload that follows a successful add or delete is not awaited by the source but completes inside the handler here, and stale updates after navigation are not modelled.
- Date formatting with `toLocaleString`, which is library behaviour.
- `alert` is recorded only as a count and `console.error` not at all.
- Reading `process.env`: the API base URL is a parameter.
- The sidebar stores whatever JSON its organization request parses to, without checking the status; the model's `fetched` parameter admits only a list or a failure, so a JSON error object stored in place of a list is not modelled.
- Header names are compared as exact strings; case-insensitive header matching and caller headers given as a `Headers` object or an array of pairs (which object spread does not copy) are not modelled.
- The form inputs' change handlers on the login and add-user forms are plain assignments and are not modelled; the sidebar's `isLoggingOut` flag is never set by the source and is omitted.
- Ids are integers: a fractional or non-finite numeric id, and its rendering in a URL, are not modelled (src/lib/api.ts:47, src/app/admin/organization/page.tsx:55, 94). The decimal rendering holds only below 10^21: JavaScript renders larger numbers in exponent form (`1e+21`), and ids above 2^53 are not exact in a JavaScript number.
- Api.NatToString: agrees with a template literal only for numbers below 10^21, where JavaScript switches to exponent form.
- Api.IntToString: agrees with a template literal only for ids of magnitude below 10^21, and for ids that a JavaScript number holds exactly (below 2^53).

=== FILE: api.dfy ===
/**
 * The authenticated API client of `src/lib/api.ts`: reading the stored token,
 * composing an authenticated request, and the three user wrappers that throw
 * on a status that is not ok. `API_BASE_URL` is the parameter `base`.
 */
module Api {
  import opened Wrappers
  import opened Browser

  /** What the client throws. */
  datatype ApiError =
    | MissingToken               // no usable token in storage
    | StatusNotOk(message: string) // `res.ok` was false
    | Thrown                     // `fetch` or `res.json()` rejected

  const AUTHORIZATION: string := "Authorization"
  const CONTENT_TYPE: string := "Content-Type"
  const JSON_MEDIA_TYPE: string := "application/json"

  /** The credential of RFC 6750 section 2.1: `Bearer <token>`. */
  function Bearer(token: string): string {
    "Bearer " + token
  }

  /** `getToken`: `null` when rendered without a `window` (`w == null`). */
  function GetToken(w: Window?): Option<string>
    reads w
  {
    if w == null then None else w.Token()
  }

  /** After the login stores a token, `getToken` reads it back; it is usable unless empty. */
  lemma GetTokenAfterSave(w: Window, s: Storage, token: string)
    requires w.storage == s[TOKEN_KEY := token]
    ensures GetToken(w) == Some(token)
    ensures Truthy(GetToken(w)) <==> token != ""
  {
  }

  /** After a logout removes the token, `getToken` reads `null`, so every authenticated call throws. */
  lemma GetTokenAfterClear(w: Window, s: Storage)
    requires w.storage == Removed(s, TOKEN_KEY)
    ensures GetToken(w) == None && !Truthy(GetToken(w))
  {
  }

  /**
   * The headers `fetchWithAuth` sends: the caller's headers (none when absent),
   * then `Authorization` and `Content-Type`, which override any caller value.
   */
  function AuthHeaders(caller: Option<Headers>, token: string): (h: Headers)
    ensures AUTHORIZATION in h && h[AUTHORIZATION] == Bearer(token)
    ensures CONTENT_TYPE in h && h[CONTENT_TYPE] == JSON_MEDIA_TYPE
    ensures h.Keys == caller.GetOr(map[]).Keys + {AUTHORIZATION, CONTENT_TYPE}
    ensures forall k :: k in caller.GetOr(map[]) && k != AUTHORIZATION && k != CONTENT_TYPE ==>
              h[k] == caller.GetOr(map[])[k]
  {
    caller.GetOr(map[])[AUTHORIZATION := Bearer(token)][CONTENT_TYPE := JSON_MEDIA_TYPE]
  }

  /**
   * The request `fetchWithAuth(endpoint, options)` issues once it has a token:
   * the URL is the base with the endpoint appended, nothing in between, and
   * every option except the headers is passed through.
   */
  function AuthRequest(base: string, endpoint: string, options: RequestInit, token: string): (r: Request)
    ensures |r.url| == |base| + |endpoint|
    ensures r.url[..|base|] == base && r.url[|base|..] == endpoint
    ensures r.init.httpMethod == options.httpMethod && r.init.body == options.body
    ensures r.init.headers == Some(AuthHeaders(options.headers, token))
  {
    Request(base + endpoint, options.(headers := Some(AuthHeaders(options.headers, token))))
  }

  /**
   * `fetchWithAuth`: throws without sending anything when the stored token is
   * absent or empty; otherwise sends `AuthRequest` and hands back whatever
   * response arrives, ok or not, throwing only when `fetch` rejects.
   * `resp` is how the network answers the request.
   */
  method FetchWithAuth<T>(w: Window, base: string, endpoint: string, options: RequestInit, resp: Response<T>)
    returns (r: Result<Response<T>, ApiError>)
    modifies w`sent
    ensures !Truthy(old(w.Token())) ==> r == Failure(MissingToken) && w.sent == old(w.sent)
    ensures Truthy(old(w.Token())) ==>
              && w.sent == old(w.sent) + [AuthRequest(base, endpoint, options, old(w.Token()).value)]
              && r == (if resp.Rejected? then Failure(Thrown) else Success(resp))
  {
    var token := GetToken(w);
    if !Truthy(token) {
      return Failure(MissingToken);
    }
    w.Send(AuthRequest(base, endpoint, options, token.value));
    r := if resp.Rejected? then Failure(Thrown) else Success(resp);
  }

  /** The rule the user wrappers apply to a response: throw unless `res.ok`, then parse. */
  function Checked<T>(resp: Response<T>, message: string): (r: Result<T, ApiError>)
    ensures r.Success? <==> resp.Ok?
    ensures r.Success? ==> r.value == resp.body
    ensures resp.NotOk? ==> r == Failure(StatusNotOk(message))
    ensures resp.OkUnparsable? || resp.Rejected? ==> r == Failure(Thrown)
  {
    match resp
    case Ok(body) => Success(body)
    case NotOk => Failure(StatusNotOk(message))
    case _ => Failure(Thrown)
  }

  /** The decimal digit `d` as a character. */
  function DigitChar(d: nat): (c: char)
    requires d < 10
    ensures '0' <= c <= '9'
    ensures c as int - '0' as int == d
  {
    (48 + d) as char
  }

  /** Every character of `s` is a decimal digit. */
  predicate IsDigits(s: string) {
    forall i :: 0 <= i < |s| ==> '0' <= s[i] <= '9'
  }

  /** The number a string of decimal digits denotes, read most significant digit first. */
  function DecimalValue(s: string): nat
    requires IsDigits(s)
  {
    if s == [] then 0 else 10 * DecimalValue(s[..|s| - 1]) + (s[|s| - 1] as int - '0' as int)
  }

  /** The number a rendering denotes: a leading `-` negates the digits after it. */
  function SignedDecimalValue(s: string): int
    requires |s| >= 1
    requires if s[0] == '-' then IsDigits(s[1..]) else IsDigits(s)
  {
    if s[0] == '-' then -(DecimalValue(s[1..]) as int) else DecimalValue(s)
  }

  /**
   * The decimal rendering of a natural number, as a template literal gives it
   * for integers below 10^21: the digits of `n` without leading zeros.
   */
  function NatToString(n: nat): (s: string)
    ensures |s| >= 1 && IsDigits(s)
    ensures DecimalValue(s) == n
    ensures s[0] == '0' <==> n == 0
    ensures |s| == 1 <==> n < 10
  {
    if n < 10 then [DigitChar(n)]
    else
      var prefix := NatToString(n / 10);
      var s := prefix + [DigitChar(n % 10)];
      assert s[..|s| - 1] == prefix;
      s
  }

  /** The decimal rendering of an integer, with a leading `-` when negative. */
  function IntToString(n: int): (s: string)
    ensures |s| >= 1
    ensures n < 0 <==> s[0] == '-'
    ensures if s[0] == '-' then IsDigits(s[1..]) else IsDigits(s)
    ensures SignedDecimalValue(s) == n
  {
    if n < 0 then
      var s := "-" + NatToString(-n);
      assert s[1..] == NatToString(-n);
      s
    else NatToString(n)
  }

  /** Different numbers render differently. */
  lemma NatToStringInjective(a: nat, b: nat)
    requires NatToString(a) == NatToString(b)
    ensures a == b
  {
  }

  lemma IntToStringInjective(a: int, b: int)
    requires IntToString(a) == IntToString(b)
    ensures a == b
  {
  }

  /** The fields `createUser` posts. */
  datatype NewUser = NewUser(studentId: string, password: string, role: string)

  /** `getUsers`: `GET <base>/user` with only the bearer header. */
  function UsersRequest(base: string, token: string): (r: Request)
    ensures r.url == base + "/user"
    ensures r.init.httpMethod == None && r.init.body == NoBody
    ensures r.init.headers.Some? && r.init.headers.value.Keys == {AUTHORIZATION}
    ensures r.init.headers.value[AUTHORIZATION] == Bearer(token)
  {
    Request(base + "/user", RequestInit(None, Some(map[AUTHORIZATION := Bearer(token)]), NoBody))
  }

  /** `createUser`: `POST <base>/user` with a JSON body of the three fields. */
  function CreateUserRequest(base: string, token: string, data: NewUser): (r: Request)
    ensures r.url == base + "/user" && r.init.httpMethod == Some("POST")
    ensures r.init.headers.Some? && r.init.headers.value.Keys == {AUTHORIZATION, CONTENT_TYPE}
    ensures r.init.headers.value[AUTHORIZATION] == Bearer(token)
    ensures r.init.headers.value[CONTENT_TYPE] == JSON_MEDIA_TYPE
    ensures r.init.body.JsonObject? && r.init.body.fields.Keys == {"studentId", "password", "role"}
    ensures r.init.body.fields["studentId"] == data.studentId
    ensures r.init.body.fields["password"] == data.password
    ensures r.init.body.fields["role"] == data.role
  {
    Request(base + "/user",
            RequestInit(Some("POST"),
                        Some(map[CONTENT_TYPE := JSON_MEDIA_TYPE, AUTHORIZATION := Bearer(token)]),
                        JsonObject(map["studentId" := data.studentId, "password" := data.password, "role" := data.role])))
  }

  /** `deleteUser`: `DELETE <base>/user/<id>` with only the bearer header. */
  function DeleteUserRequest(base: string, token: string, userId: int): (r: Request)
    ensures |r.url| > |base + "/user/"| && r.url[..|base + "/user/"|] == base + "/user/"
    ensures r.url[|base + "/user/"|..] == IntToString(userId)
    ensures r.init.httpMethod == Some("DELETE") && r.init.body == NoBody
    ensures r.init.headers.Some? && r.init.headers.value.Keys == {AUTHORIZATION}
    ensures r.init.headers.value[AUTHORIZATION] == Bearer(token)
  {
    Request(base + "/user/" + IntToString(userId),
            RequestInit(Some("DELETE"), Some(map[AUTHORIZATION := Bearer(token)]), NoBody))
  }

  /** Deleting two different users targets two different URLs. */
  lemma DeleteUserTargetsOneUser(base: string, token: string, a: int, b: int)
    requires DeleteUserRequest(base, token, a).url == DeleteUserRequest(base, token, b).url
    ensures a == b
  {
    var prefix := base + "/user/";
    assert prefix + IntToString(a) == prefix + IntToString(b);
    assert IntToString(a) == (prefix + IntToString(a))[|prefix|..];
    assert IntToString(b) == (prefix + IntToString(b))[|prefix|..];
    IntToStringInjective(a, b);
  }

  /** `getUsers(token)`: one request, no retry; throws unless the status is ok. */
  method GetUsers<T>(w: Window, base: string, token: string, resp: Response<T>)
    returns (r: Result<T, ApiError>)
    modifies w`sent
    ensures w.sent == old(w.sent) + [UsersRequest(base, token)]
    ensures r == Checked(resp, "Failed to fetch users")
  {
    w.Send(UsersRequest(base, token));
    r := Checked(resp, "Failed to fetch users");
  }

  /** `createUser(data, token)`: one request, no retry; throws unless the status is ok. */
  method CreateUser<T>(w: Window, base: string, data: NewUser, token: string, resp: Response<T>)
    returns (r: Result<T, ApiError>)
    modifies w`sent
    ensures w.sent == old(w.sent) + [CreateUserRequest(base, token, data)]
    ensures r == Checked(resp, "Failed to create user")
  {
    w.Send(CreateUserRequest(base, token, data));
    r := Checked(resp, "Failed to create user");
  }

  /** `deleteUser(userId, token)`: one request, no retry; throws unless the status is ok. */
  method DeleteUser<T>(w: Window, base: string, userId: int, token: string, resp: Response<T>)
    returns (r: Result<T, ApiError>)
    modifies w`sent
    ensures w.sent == old(w.sent) + [DeleteUserRequest(base, token, userId)]
    ensures r == Checked(resp, "Failed to delete user")
  {
    w.Send(DeleteUserRequest(base, token, userId));
    r := Checked(resp, "Failed to delete user");
  }
}

=== FILE: browser.dfy ===
/**
 * The browser facilities the screens use, reduced to what their decisions
 * depend on: Web Storage (`localStorage`), the router's navigation log, the
 * requests handed to `fetch`, the way a `fetch` call can end, and `alert`.
 */
module Browser {
  import opened Wrappers

  /** `localStorage`: a map from key to stored string. */
  type Storage = map<string, string>

  /** The only storage key the application reads or writes. */
  const TOKEN_KEY: string := "token"

  /** `localStorage.getItem(key)`: `null` when the key is not set. */
  function Lookup(s: Storage, key: string): Option<string> {
    if key in s then Some(s[key]) else None
  }

  /**
   * `localStorage.removeItem(key)`. Under the Web Storage section of the HTML
   * Living Standard, removing a key that is not present does nothing.
   */
  function Removed(s: Storage, key: string): (r: Storage)
    ensures key !in r
    ensures forall k :: k in s && k != key ==> k in r && r[k] == s[k]
    ensures r.Keys == s.Keys - {key}
    ensures key !in s ==> r == s
  {
    s - {key}
  }

  /**
   * Reading after a write gives the value written, reading after a removal
   * gives `null`, every other key reads as before, and removing a key twice
   * is the same as removing it once.
   */
  lemma StorageRoundTrip(s: Storage, key: string, value: string, other: string)
    ensures Lookup(s[key := value], key) == Some(value)
    ensures Lookup(Removed(s, key), key) == None
    ensures other != key ==> Lookup(s[key := value], other) == Lookup(s, other)
    ensures other != key ==> Lookup(Removed(s, key), other) == Lookup(s, other)
    ensures Removed(Removed(s, key), key) == Removed(s, key)
  {
  }

  /** JavaScript truthiness of a value read from storage: `null` and `""` are falsy. */
  predicate Truthy(v: Option<string>) {
    v.Some? && v.value != ""
  }

  /** Request headers as a plain object: header name to value. */
  type Headers = map<string, string>

  /** A request body: none, or the `JSON.stringify` of a flat object of strings. */
  datatype Body = NoBody | JsonObject(fields: map<string, string>)

  /** The options argument of `fetch` (a `RequestInit`), restricted to the fields used. */
  datatype RequestInit = RequestInit(httpMethod: Option<string>, headers: Option<Headers>, body: Body)

  /** The options `{}`: nothing set. */
  const NO_OPTIONS: RequestInit := RequestInit(None, None, NoBody)

  /** One call of `fetch(url, init)`. */
  datatype Request = Request(url: string, init: RequestInit)

  /**
   * How one `fetch` call and the `res.json()` that may follow it end:
   * - `Ok(body)`: a 2xx status whose body parses as the expected JSON value;
   * - `OkUnparsable`: a 2xx status whose body `res.json()` rejects;
   * - `NotOk`: any other status (`res.ok` is false);
   * - `Rejected`: `fetch` itself rejects (network failure).
   */
  datatype Response<+T> = Ok(body: T) | OkUnparsable | NotOk | Rejected

  /** The route list a `router.push` call adds, if any route was pushed. */
  function RouteLog(route: Option<string>): seq<string> {
    if route.Some? then [route.value] else []
  }

  /**
   * The environment one page runs in: the storage, the routes pushed so far,
   * the requests sent so far and the number of alerts shown so far.
   */
  class Window {
    var storage: Storage
    var history: seq<string>
    var sent: seq<Request>
    var alerts: nat

    constructor (storage: Storage)
      ensures this.storage == storage && history == [] && sent == [] && alerts == 0
    {
      this.storage := storage;
      history := [];
      sent := [];
      alerts := 0;
    }

    /** The value stored under the token key, if any. */
    function Token(): Option<string>
      reads this
    {
      Lookup(storage, TOKEN_KEY)
    }

    /** `localStorage.getItem(key)`. */
    method GetItem(key: string) returns (v: Option<string>)
      ensures v == Lookup(storage, key)
    {
      v := Lookup(storage, key);
    }

    method SetItem(key: string, value: string)
      modifies this`storage
      ensures storage == old(storage)[key := value]
    {
      storage := storage[key := value];
    }

    method RemoveItem(key: string)
      modifies this`storage
      ensures storage == Removed(old(storage), key)
    {
      storage := storage - {key};
    }

    /** `router.push(route)`. */
    method Push(route: string)
      modifies this`history
      ensures history == old(history) + [route]
    {
      history := history + [route];
    }

    /** Hands a request to `fetch`. */
    method Send(req: Request)
      modifies this`sent
      ensures sent == old(sent) + [req]
    {
      sent := sent + [req];
    }

    /** `alert(...)`; only the fact that an alert was shown is recorded. */
    method Alert()
      modifies this`alerts
      ensures alerts == old(alerts) + 1
    {
      alerts := alerts + 1;
    }
  }
}

=== FILE: landing_page.dfy ===
/**
 * The student landing page of `src/app/page.tsx`, whose only behaviour is
 * its logout button.
 */
module LandingPage {
  import opened Browser
  import Session

  class LandingScreen {
    const window: Window

    constructor (window: Window)
      ensures this.window == window
    {
      this.window := window;
    }

    /**
     * `handleLogout`: remove the token, then go to `/login`. Other keys are
     * untouched, and with no token stored the storage is unchanged while the
     * route is still pushed.
     */
    method HandleLogout()
      modifies window`storage, window`history
      ensures window.storage == Removed(old(window.storage), TOKEN_KEY)
      ensures TOKEN_KEY !in window.storage
      ensures forall k :: k in old(window.storage) && k != TOKEN_KEY ==>
                k in window.storage && window.storage[k] == old(window.storage)[k]
      ensures TOKEN_KEY !in old(window.storage) ==> window.storage == old(window.storage)
      ensures window.history == old(window.history) + [Session.LOGIN_ROUTE]
    {
      window.RemoveItem(TOKEN_KEY);
      window.Push(Session.LOGIN_ROUTE);
    }
  }
}

=== FILE: login_page.dfy ===
/**
 * The login screen of `src/app/admin/login/page.tsx`: the token gate that runs
 * when the screen mounts, and the submit handler. Each handler performs the
 * storage and router calls step by step; its contract ties the outcome to the
 * value-level decisions `Session.Gate` and `Session.Login`.
 */
module LoginPage {
  import opened Browser
  import opened Session

  class LoginScreen {
    const window: Window
    var studentId: string
    var password: string
    var isCheckingToken: bool

    constructor (window: Window)
      ensures this.window == window
      ensures studentId == "" && password == "" && isCheckingToken
      ensures ShowsLoading()
    {
      this.window := window;
      studentId := "";
      password := "";
      isCheckingToken := true;
    }

    /** The screen shows only the loading placeholder while the gate has not run. */
    predicate ShowsLoading()
      reads this
    {
      isCheckingToken
    }

    /** The mount effect: inspect the stored token, then stop checking. */
    method CheckToken(decode: Decoder)
      modifies this`isCheckingToken, window`storage, window`history
      ensures !isCheckingToken && !ShowsLoading()
      ensures window.storage == Gate(old(window.storage), decode).storage
      ensures window.history == old(window.history) + RouteLog(Gate(old(window.storage), decode).route)
    {
      var token := window.GetItem(TOKEN_KEY);
      if Truthy(token) {
        var claims := decode(token.value);
        if claims.None? {
          window.RemoveItem(TOKEN_KEY);
        } else if claims.value.role == ADMIN_ROLE {
          window.Push(ADMIN_HOME);
        } else if claims.value.role == STUDENT_ROLE {
          window.Push(LANDING);
        } else {
          window.RemoveItem(TOKEN_KEY);
        }
      }
      isCheckingToken := false;
    }

    /**
     * Submitting the form. `resp` is how the login request ends, carrying the
     * `access_token` of the body when it is ok.
     */
    method HandleLogin(resp: Response<string>, decode: Decoder)
      modifies window`storage, window`history, window`alerts
      ensures window.storage == Login(old(window.storage), resp, decode).storage
      ensures window.history == old(window.history) + RouteLog(Login(old(window.storage), resp, decode).route)
      ensures window.alerts == old(window.alerts) + (if Login(old(window.storage), resp, decode).alerted then 1 else 0)
    {
      if !resp.Ok? {
        // A status that is not ok alerts and returns; a rejected fetch or an
        // unparsable body lands in the catch, which alerts as well.
        window.Alert();
        return;
      }
      var token := resp.body;
      window.SetItem(TOKEN_KEY, token);
      var claims := decode(token);
      if claims.None? {
        window.Alert();
        return;
      }
      if claims.value.role == ADMIN_ROLE {
        window.Push(ADMIN_HOME);
      } else if claims.value.role == STUDENT_ROLE {
        window.Push(STUDENT_DASHBOARD);
      } else {
        window.Alert();
        window.RemoveItem(TOKEN_KEY);
      }
    }
  }
}

=== FILE: organization_page.dfy ===
/**
 * The organization list screen of `src/app/admin/organization/page.tsx`:
 * loading the list through `fetchWithAuth`, and deleting the organization
 * whose id the confirmation holds. The row removal is the pure `WithoutId`.
 */
module OrganizationPage {
  import opened Wrappers
  import opened Browser
  import Api
  import Session

  /** An organization row as the API returns it. */
  datatype Organization = Organization(
    id: int, name: string, fullname: string, description: string, logo_URL: string,
    vision: string, mission: string, createdAt: string, updatedAt: string)

  const ORGANIZATION_ENDPOINT: string := "/organization"

  /** `prev.filter(org => org.id !== id)`. */
  function WithoutId(orgs: seq<Organization>, id: int): (r: seq<Organization>)
    ensures |r| <= |orgs|
    ensures forall o :: o in r <==> o in orgs && o.id != id
  {
    if orgs == [] then []
    else if orgs[0].id != id then [orgs[0]] + WithoutId(orgs[1..], id)
    else WithoutId(orgs[1..], id)
  }

  /** The filter works piece by piece, so the kept rows stay in their order. */
  lemma {:induction false} WithoutIdAppend(a: seq<Organization>, b: seq<Organization>, id: int)
    ensures WithoutId(a + b, id) == WithoutId(a, id) + WithoutId(b, id)
  {
    if a == [] {
      assert a + b == b;
    } else {
      assert (a + b)[0] == a[0] && (a + b)[1..] == a[1..] + b;
      WithoutIdAppend(a[1..], b, id);
    }
  }

  /** A list without the id is left exactly as it was. */
  lemma {:induction false} WithoutIdKeepsOthers(orgs: seq<Organization>, id: int)
    requires forall i :: 0 <= i < |orgs| ==> orgs[i].id != id
    ensures WithoutId(orgs, id) == orgs
  {
    if orgs != [] {
      WithoutIdKeepsOthers(orgs[1..], id);
    }
  }

  /** Filtering twice by the same id removes nothing more. */
  lemma {:induction false} WithoutIdIdempotent(orgs: seq<Organization>, id: int)
    ensures WithoutId(WithoutId(orgs, id), id) == WithoutId(orgs, id)
  {
    var r := WithoutId(orgs, id);
    forall i | 0 <= i < |r|
      ensures r[i].id != id
    {
      assert r[i] in r;
    }
    WithoutIdKeepsOthers(r, id);
  }

  /** `!deleteId` is false: the id is neither `null` nor `0`. */
  predicate IsDeletable(deleteId: Option<int>) {
    deleteId.Some? && deleteId.value != 0
  }

  /** The options `{ method: 'DELETE' }`. */
  const DELETE_OPTIONS: RequestInit := RequestInit(Some("DELETE"), None, NoBody)

  /** The request `handleDelete` sends for an id once a token is there. */
  function DeleteRequest(base: string, token: string, id: int): (r: Request)
    ensures r.init.httpMethod == Some("DELETE") && r.init.body == NoBody
    ensures r.init.headers == Some(Api.AuthHeaders(None, token))
    ensures var prefix := base + ORGANIZATION_ENDPOINT + "/";
            && |r.url| > |prefix| && r.url[..|prefix|] == prefix
            && r.url[|prefix|..] == Api.IntToString(id)
  {
    var prefix, digits := base + ORGANIZATION_ENDPOINT + "/", Api.IntToString(id);
    assert base + (ORGANIZATION_ENDPOINT + "/" + digits) == prefix + digits;
    Api.AuthRequest(base, ORGANIZATION_ENDPOINT + "/" + digits, DELETE_OPTIONS, token)
  }

  class OrganizationScreen {
    const window: Window
    const apiBase: string
    var data: seq<Organization>
    var loading: bool
    var selectedOrg: Option<Organization>
    var showDetailModal: bool
    var showDeleteModal: bool
    var deleteId: Option<int>

    constructor (window: Window, apiBase: string)
      ensures this.window == window && this.apiBase == apiBase
      ensures data == [] && loading && selectedOrg == None
      ensures !showDetailModal && !showDeleteModal && deleteId == None
    {
      this.window := window;
      this.apiBase := apiBase;
      data := [];
      loading := true;
      selectedOrg := None;
      showDetailModal := false;
      showDeleteModal := false;
      deleteId := None;
    }

    /**
     * `fetchOrganizations`. A missing token, a status that is not ok, a
     * failed fetch or an unparsable body all alert and push `/login`; a list
     * replaces `data`. `loading` is cleared in every case.
     */
    method FetchOrganizations(resp: Response<seq<Organization>>)
      modifies this`data, this`loading, window`history, window`sent, window`alerts
      ensures !loading
      ensures !Truthy(old(window.Token())) ==> window.sent == old(window.sent)
      ensures Truthy(old(window.Token())) ==>
                window.sent == old(window.sent) + [Api.AuthRequest(apiBase, ORGANIZATION_ENDPOINT, NO_OPTIONS, old(window.Token()).value)]
      ensures Truthy(old(window.Token())) && resp.Ok? ==>
                data == resp.body && window.history == old(window.history) && window.alerts == old(window.alerts)
      ensures !(Truthy(old(window.Token())) && resp.Ok?) ==>
                && data == old(data)
                && window.history == old(window.history) + [Session.LOGIN_ROUTE]
                && window.alerts == old(window.alerts) + 1
    {
      var r := Api.FetchWithAuth(window, apiBase, ORGANIZATION_ENDPOINT, NO_OPTIONS, resp);
      if r.Success? && r.value.Ok? {
        data := r.value.body;
      } else {
        window.Alert();
        window.Push(Session.LOGIN_ROUTE);
      }
      loading := false;
    }

    /**
     * `handleDelete`, given how the delete request ends. Nothing happens for
     * a `null` or `0` id. Otherwise, whenever the call returns, whatever its
     * status, the rows with that id go and the confirmation closes; when it
     * throws (no token, or `fetch` rejected) only an alert is shown.
     */
    method HandleDelete(resp: Response<()>)
      modifies this`data, this`showDeleteModal, this`deleteId, window`sent, window`alerts
      ensures !IsDeletable(old(deleteId)) ==>
                && data == old(data) && showDeleteModal == old(showDeleteModal) && deleteId == old(deleteId)
                && window.sent == old(window.sent) && window.alerts == old(window.alerts)
      ensures IsDeletable(old(deleteId)) && Truthy(old(window.Token())) ==>
                window.sent == old(window.sent) + [DeleteRequest(apiBase, old(window.Token()).value, old(deleteId).value)]
      ensures IsDeletable(old(deleteId)) && !Truthy(old(window.Token())) ==> window.sent == old(window.sent)
      ensures IsDeletable(old(deleteId)) && Truthy(old(window.Token())) && !resp.Rejected? ==>
                && data == WithoutId(old(data), old(deleteId).value)
                && !showDeleteModal && deleteId == None
                && window.alerts == old(window.alerts)
      ensures IsDeletable(old(deleteId)) && !(Truthy(old(window.Token())) && !resp.Rejected?) ==>
                && data == old(data) && showDeleteModal == old(showDeleteModal) && deleteId == old(deleteId)
                && window.alerts == old(window.alerts) + 1
    {
      if !IsDeletable(deleteId) {
        return;
      }
      var id := deleteId.value;
      var r := Api.FetchWithAuth(window, apiBase, ORGANIZATION_ENDPOINT + "/" + Api.IntToString(id), DELETE_OPTIONS, resp);
      if r.Failure? {
        window.Alert();
        return;
      }
      data := WithoutId(data, id);
      showDeleteModal := false;
      deleteId := None;
    }

    /** The row's delete button: remember the id and open the confirmation. */
    method AskDelete(id: int)
      modifies this`deleteId, this`showDeleteModal
      ensures deleteId == Some(id) && showDeleteModal
    {
      deleteId := Some(id);
      showDeleteModal := true;
    }

    /** The confirmation's cancel button closes it but keeps `deleteId`. */
    method CancelDelete()
      modifies this`showDeleteModal
      ensures !showDeleteModal
    {
      showDeleteModal := false;
    }

    /** The row's detail button, and the detail modal's close button. */
    method ShowDetail(org: Organization)
      modifies this`selectedOrg, this`showDetailModal
      ensures selectedOrg == Some(org) && showDetailModal
    {
      selectedOrg := Some(org);
      showDetailModal := true;
    }

    method CloseDetail()
      modifies this`showDetailModal
      ensures !showDetailModal
    {
      showDetailModal := false;
    }

    /** The row's edit button navigates to the edit form of that organization. */
    method EditOrganization(id: int)
      modifies window`history
      ensures window.history == old(window.history) + ["/admin/organization/edit/" + Api.IntToString(id)]
    {
      window.Push("/admin/organization/edit/" + Api.IntToString(id));
    }

    /** The Add Organization button navigates to the add form. */
    method AddOrganization()
      modifies window`history
      ensures window.history == old(window.history) + ["/admin/organization/add"]
    {
      window.Push("/admin/organization/add");
    }
  }
}

=== FILE: session.dfy ===
/**
 * The session decisions of the login screen (`src/app/admin/login/page.tsx`),
 * stated over values: what the mount-time token gate and the post-login flow
 * do to storage, which route they push and whether they alert. `jwtDecode`
 * is the parameter `decode`, which gives `None` where the library throws.
 */
module Session {
  import opened Wrappers
  import opened Browser

  /** The claims read from a token payload; only `role` is used. A role that is
      not a string compares unequal to every literal, like any other role. */
  datatype Claims = Claims(role: string)

  /** `jwtDecode`: the payload of a token, or `None` where it throws. */
  type Decoder = string -> Option<Claims>

  const ADMIN_ROLE: string := "admin"
  const STUDENT_ROLE: string := "student"

  const ADMIN_HOME: string := "/admin"
  const LANDING: string := "/"
  const STUDENT_DASHBOARD: string := "/dashboard"
  const LOGIN_ROUTE: string := "/login"

  /** Where the gate sends a recognised role. */
  function GateRoute(role: string): (r: Option<string>)
    ensures r.Some? <==> role == ADMIN_ROLE || role == STUDENT_ROLE
    ensures r == Some(ADMIN_HOME) <==> role == ADMIN_ROLE
    ensures r == Some(LANDING) <==> role == STUDENT_ROLE
    ensures r != Some(LOGIN_ROUTE)
  {
    if role == ADMIN_ROLE then Some(ADMIN_HOME)
    else if role == STUDENT_ROLE then Some(LANDING)
    else None
  }

  /** Where a successful login sends a recognised role. */
  function LoginRoute(role: string): (r: Option<string>)
    ensures r.Some? <==> role == ADMIN_ROLE || role == STUDENT_ROLE
    ensures r == Some(ADMIN_HOME) <==> role == ADMIN_ROLE
    ensures r == Some(STUDENT_DASHBOARD) <==> role == STUDENT_ROLE
    ensures r != Some(LOGIN_ROUTE)
  {
    if role == ADMIN_ROLE then Some(ADMIN_HOME)
    else if role == STUDENT_ROLE then Some(STUDENT_DASHBOARD)
    else None
  }

  /** The two mappings agree on every role except `student`. */
  lemma RoutesDifferOnlyForStudents(role: string)
    ensures GateRoute(role) == LoginRoute(role) <==> role != STUDENT_ROLE
    ensures GateRoute(role).Some? <==> LoginRoute(role).Some?
  {
  }

  /** The role of the token the gate inspects: present only for a truthy stored
      token that decodes. */
  function StoredRole(s: Storage, decode: Decoder): Option<string> {
    var token := Lookup(s, TOKEN_KEY);
    if Truthy(token) && decode(token.value).Some? then Some(decode(token.value).value.role) else None
  }

  /** What one handler does: the storage afterwards, the route it pushed (if
      any) and whether it showed an alert. */
  datatype Effects = Effects(storage: Storage, route: Option<string>, alerted: bool)

  /**
   * The mount-time gate. A falsy stored token is left alone; a token that does
   * not decode, or decodes to an unrecognised role, is removed; an `admin`
   * token sends the user to `/admin` and a `student` token to `/`, and stays.
   */
  function Gate(s: Storage, decode: Decoder): (e: Effects)
    ensures !e.alerted
    ensures e.route == Some(ADMIN_HOME) <==> StoredRole(s, decode) == Some(ADMIN_ROLE)
    ensures e.route == Some(LANDING) <==> StoredRole(s, decode) == Some(STUDENT_ROLE)
    ensures e.route.None? || e.route == Some(ADMIN_HOME) || e.route == Some(LANDING)
    ensures e.storage == s || e.storage == Removed(s, TOKEN_KEY)
    ensures e.storage == s <==> e.route.Some? || !Truthy(Lookup(s, TOKEN_KEY))
    ensures !Truthy(Lookup(s, TOKEN_KEY)) ==> e == Effects(s, None, false)
  {
    var token := Lookup(s, TOKEN_KEY);
    if !Truthy(token) then Effects(s, None, false)
    else
      var claims := decode(token.value);
      if claims.None? then Effects(Removed(s, TOKEN_KEY), None, false)
      else
        var route := GateRoute(claims.value.role);
        if route.Some? then Effects(s, route, false)
        else Effects(Removed(s, TOKEN_KEY), None, false)
  }

  /** Running the gate a second time changes nothing more and pushes the same route. */
  lemma GateIdempotent(s: Storage, decode: Decoder)
    ensures Gate(Gate(s, decode).storage, decode) == Gate(s, decode)
  {
  }

  /**
   * The post-login flow, given the response to the login request. A response
   * that is not ok (or that fails) stores nothing. An ok response stores its
   * token first and decodes it afterwards: `admin` goes to `/admin`, `student`
   * to `/dashboard`, any other role removes the token again with an alert,
   * and a token that does not decode stays stored behind an alert.
   */
  function Login(s: Storage, resp: Response<string>, decode: Decoder): (e: Effects)
    ensures !resp.Ok? ==> e == Effects(s, None, true)
    ensures e.route == Some(ADMIN_HOME) <==> resp.Ok? && decode(resp.body) == Some(Claims(ADMIN_ROLE))
    ensures e.route == Some(STUDENT_DASHBOARD) <==> resp.Ok? && decode(resp.body) == Some(Claims(STUDENT_ROLE))
    ensures e.route.None? || e.route == Some(ADMIN_HOME) || e.route == Some(STUDENT_DASHBOARD)
    ensures e.alerted <==> e.route.None?
    ensures resp.Ok? && (e.route.Some? || decode(resp.body).None?) ==>
              e.storage == s[TOKEN_KEY := resp.body]
    ensures resp.Ok? && e.route.None? && decode(resp.body).Some? ==>
              e.storage == Removed(s, TOKEN_KEY)
  {
    if !resp.Ok? then Effects(s, None, true)
    else
      var stored := s[TOKEN_KEY := resp.body];
      var claims := decode(resp.body);
      if claims.None? then Effects(stored, None, true)
      else
        var route := LoginRoute(claims.value.role);
        if route.Some? then Effects(stored, route, false)
        else
          Effects(Removed(stored, TOKEN_KEY), None, true)
  }

  /**
   * A later visit to the login screen after an ok login with a non-empty
   * token: the gate sends a recognised role to the gate's own target (so a
   * student who logged in to `/dashboard` is sent to `/` instead), and it
   * removes a stored token that does not decode. An empty token is stored by
   * the login and then ignored by the gate, which treats it as absent.
   */
  lemma LoginThenGate(s: Storage, token: string, decode: Decoder)
    ensures var after := Login(s, Ok(token), decode).storage;
            && (token != "" ==>
                  Gate(after, decode).route == (if decode(token).Some? then GateRoute(decode(token).value.role) else None))
            && (token != "" && decode(token).None? ==> TOKEN_KEY !in Gate(after, decode).storage)
            && (token == "" ==> Gate(after, decode) == Effects(after, None, false))
  {
  }
}

=== FILE: sidebar.dfy ===
/**
 * The admin sidebar of `src/components/sidebar.tsx`: its open/closed state,
 * the per-label dropdown map, the Manage Members links derived from the
 * organizations, which entry is active, the mount-time organization fetch,
 * and logout.
 */
module Sidebar {
  import opened Wrappers
  import opened Browser
  import Session

  /** An organization as the sidebar reads it. */
  datatype OrgLink = OrgLink(id: int, name: string, slug: string)

  /** A static sidebar entry; the Manage Members entry has no link. */
  datatype Item = Item(caption: string, link: Option<string>)

  /** A link shown under a dropdown entry. */
  datatype Child = Child(caption: string, link: string)

  const MANAGE_MEMBERS: string := "Manage Members"
  const MEMBERS_PREFIX: string := "/admin/members/"

  const STATIC_ITEMS: seq<Item> := [
    Item("Dashboard", Some("/admin")),
    Item(MANAGE_MEMBERS, None),
    Item("Users", Some("/admin/users")),
    Item("Organization", Some("/admin/organization")),
    Item("Agenda Activity", Some("/admin/agenda"))
  ]

  /** `pathname === link`: an entry without a link is never active. */
  predicate IsActive(pathname: string, link: Option<string>) {
    link == Some(pathname)
  }

  /** No path makes two static entries active, and Manage Members is never active. */
  lemma StaticItemsActiveAtMostOnce(pathname: string, i: nat, j: nat)
    requires i < |STATIC_ITEMS| && j < |STATIC_ITEMS|
    requires IsActive(pathname, STATIC_ITEMS[i].link) && IsActive(pathname, STATIC_ITEMS[j].link)
    ensures i == j
    ensures STATIC_ITEMS[i].caption != MANAGE_MEMBERS
  {
  }

  /** The children of Manage Members: one link per organization, in order. */
  function MemberChildren(orgs: seq<OrgLink>): (cs: seq<Child>)
    ensures |cs| == |orgs|
    ensures forall i :: 0 <= i < |orgs| ==> cs[i] == Child(orgs[i].name, MEMBERS_PREFIX + orgs[i].slug)
  {
    if orgs == [] then [] else [Child(orgs[0].name, MEMBERS_PREFIX + orgs[0].slug)] + MemberChildren(orgs[1..])
  }

  /** When slugs are distinct, at most one member link is active for any path. */
  lemma {:induction false} MemberChildActiveAtMostOnce(pathname: string, orgs: seq<OrgLink>, i: nat, j: nat)
    requires forall a, b :: 0 <= a < b < |orgs| ==> orgs[a].slug != orgs[b].slug
    requires i < |orgs| && j < |orgs|
    requires IsActive(pathname, Some(MemberChildren(orgs)[i].link))
    requires IsActive(pathname, Some(MemberChildren(orgs)[j].link))
    ensures i == j
  {
    var si, sj := orgs[i].slug, orgs[j].slug;
    assert MEMBERS_PREFIX + si == pathname == MEMBERS_PREFIX + sj;
    assert si == (MEMBERS_PREFIX + si)[|MEMBERS_PREFIX|..];
    assert sj == (MEMBERS_PREFIX + sj)[|MEMBERS_PREFIX|..];
  }

  /** `openDropdowns[label]`, where a missing entry reads as closed. */
  predicate IsDropdownOpen(open: map<string, bool>, caption: string) {
    caption in open && open[caption]
  }

  /** `{ ...prev, [label]: !prev[label] }`. */
  function Toggled(open: map<string, bool>, caption: string): (r: map<string, bool>)
    ensures caption in r
    ensures IsDropdownOpen(r, caption) == !IsDropdownOpen(open, caption)
    ensures forall l :: l != caption ==> (l in r <==> l in open)
    ensures forall l :: l in open && l != caption ==> r[l] == open[l]
  {
    open[caption := !IsDropdownOpen(open, caption)]
  }

  /**
   * Toggling a label twice restores whether it is open; the map itself comes
   * back unchanged only when the label already had an entry.
   */
  lemma ToggleTwice(open: map<string, bool>, caption: string)
    ensures IsDropdownOpen(Toggled(Toggled(open, caption), caption), caption) == IsDropdownOpen(open, caption)
    ensures caption in open <==> Toggled(Toggled(open, caption), caption) == open
  {
  }

  class SidebarPanel {
    const window: Window
    var isOpen: bool
    var openDropdowns: map<string, bool>
    var showLogoutConfirm: bool
    var organizations: seq<OrgLink>

    constructor (window: Window)
      ensures this.window == window
      ensures isOpen && openDropdowns == map[] && !showLogoutConfirm && organizations == []
    {
      this.window := window;
      isOpen := true;
      openDropdowns := map[];
      showLogoutConfirm := false;
      organizations := [];
    }

    /** The links rendered under Manage Members. */
    function Children(): seq<Child>
      reads this
    {
      MemberChildren(organizations)
    }

    method ToggleSidebar()
      modifies this`isOpen
      ensures isOpen == !old(isOpen)
    {
      isOpen := !isOpen;
    }

    method ToggleDropdown(caption: string)
      modifies this`openDropdowns
      ensures openDropdowns == Toggled(old(openDropdowns), caption)
    {
      openDropdowns := openDropdowns[caption := !(caption in openDropdowns && openDropdowns[caption])];
    }

    /**
     * The mount effect. Without a truthy token nothing is requested; otherwise
     * the organizations are fetched, and `fetched` is the list the response
     * parsed to, or `None` when the fetch or the parse failed (only logged).
     */
    method LoadOrganizations(fetched: Option<seq<OrgLink>>) returns (requested: bool)
      modifies this`organizations
      ensures requested <==> Truthy(window.Token())
      ensures organizations == if requested && fetched.Some? then fetched.value else old(organizations)
      ensures requested && fetched.Some? ==> Children() == MemberChildren(fetched.value)
    {
      var token := window.GetItem(TOKEN_KEY);
      if !Truthy(token) {
        return false;
      }
      requested := true;
      if fetched.Some? {
        organizations := fetched.value;
      }
    }

    /** The logout button opens the confirmation; its cancel button closes it. */
    method AskLogout()
      modifies this`showLogoutConfirm
      ensures showLogoutConfirm
    {
      showLogoutConfirm := true;
    }

    method CancelLogout()
      modifies this`showLogoutConfirm
      ensures !showLogoutConfirm
    {
      showLogoutConfirm := false;
    }

    /** The confirmed logout: remove the token, then go to `/login`. */
    method HandleLogout()
      modifies window`storage, window`history
      ensures window.storage == Removed(old(window.storage), TOKEN_KEY)
      ensures window.history == old(window.history) + [Session.LOGIN_ROUTE]
    {
      window.RemoveItem(TOKEN_KEY);
      window.Push(Session.LOGIN_ROUTE);
    }
  }
}

=== FILE: users_page.dfy ===
/**
 * The user administration screen of `src/app/admin/users/page.tsx`: loading
 * the user list, adding a user through the modal form, and deleting the
 * selected user. Each handler reads the token first and sends the user to
 * `/login` when there is none. `resp`-style parameters are how the requests
 * the handler sends end.
 */
module UsersPage {
  import opened Wrappers
  import opened Browser
  import Api
  import Session

  /** A user row as the API returns it. */
  datatype User = User(id: int, studentId: string, role: string, createdAt: string)

  /** The role the add form starts with and is reset to. */
  const DEFAULT_ROLE: string := "student"

  class UsersScreen {
    const window: Window
    const apiBase: string
    var users: seq<User>
    var loading: bool
    var showAddModal: bool
    var showDeleteModal: bool
    var selectedUser: Option<User>
    var studentId: string
    var password: string
    var role: string

    constructor (window: Window, apiBase: string)
      ensures this.window == window && this.apiBase == apiBase
      ensures users == [] && loading && !showAddModal && !showDeleteModal && selectedUser == None
      ensures studentId == "" && password == "" && role == DEFAULT_ROLE
    {
      this.window := window;
      this.apiBase := apiBase;
      users := [];
      loading := true;
      showAddModal := false;
      showDeleteModal := false;
      selectedUser := None;
      studentId := "";
      password := "";
      role := DEFAULT_ROLE;
    }

    /** The fields the add form submits. */
    function Form(): Api.NewUser
      reads this
    {
      Api.NewUser(studentId, password, role)
    }

    /**
     * `fetchUsers`. Without a token it only pushes `/login`, returning before
     * the `finally`, so `loading` keeps its value. Otherwise it sends one
     * request, replaces the list on success, alerts on failure, and clears
     * `loading` either way.
     */
    method FetchUsers(resp: Response<seq<User>>)
      modifies this`users, this`loading, window`history, window`sent, window`alerts
      ensures !Truthy(old(window.Token())) ==>
                && window.history == old(window.history) + [Session.LOGIN_ROUTE]
                && window.sent == old(window.sent)
                && window.alerts == old(window.alerts)
                && users == old(users) && loading == old(loading)
      ensures Truthy(old(window.Token())) ==>
                && window.history == old(window.history)
                && window.sent == old(window.sent) + [Api.UsersRequest(apiBase, old(window.Token()).value)]
                && users == (if resp.Ok? then resp.body else old(users))
                && window.alerts == old(window.alerts) + (if resp.Ok? then 0 else 1)
                && !loading
    {
      var token := window.GetItem(TOKEN_KEY);
      if !Truthy(token) {
        window.Push(Session.LOGIN_ROUTE);
        return;
      }
      var r := Api.GetUsers(window, apiBase, token.value, resp);
      if r.Success? {
        users := r.value;
      } else {
        window.Alert();
      }
      loading := false;
    }

    /**
     * `handleAddUser`. `created` is how the create request ends and `refetch`
     * how the list request that follows a success ends. A success closes the
     * modal and resets the form before reloading; a failure alerts and leaves
     * the form and the modal as they were.
     */
    method HandleAddUser(created: Response<()>, refetch: Response<seq<User>>)
      modifies this`users, this`loading, this`showAddModal, this`studentId, this`password, this`role
      modifies window`history, window`sent, window`alerts
      ensures !Truthy(old(window.Token())) ==>
                && window.history == old(window.history) + [Session.LOGIN_ROUTE]
                && window.sent == old(window.sent) && window.alerts == old(window.alerts)
                && users == old(users) && loading == old(loading) && showAddModal == old(showAddModal)
                && Form() == old(Form())
      ensures Truthy(old(window.Token())) && created.Ok? ==>
                && !showAddModal && studentId == "" && password == "" && role == DEFAULT_ROLE
                && window.history == old(window.history)
                && window.sent == old(window.sent) + [Api.CreateUserRequest(apiBase, old(window.Token()).value, old(Form())),
                                                      Api.UsersRequest(apiBase, old(window.Token()).value)]
                && users == (if refetch.Ok? then refetch.body else old(users)) && !loading
                && window.alerts == old(window.alerts) + (if refetch.Ok? then 0 else 1)
      ensures Truthy(old(window.Token())) && !created.Ok? ==>
                && showAddModal == old(showAddModal) && Form() == old(Form())
                && window.history == old(window.history)
                && window.sent == old(window.sent) + [Api.CreateUserRequest(apiBase, old(window.Token()).value, old(Form()))]
                && users == old(users) && loading == old(loading)
                && window.alerts == old(window.alerts) + 1
    {
      var token := window.GetItem(TOKEN_KEY);
      if !Truthy(token) {
        window.Push(Session.LOGIN_ROUTE);
        return;
      }
      var r := Api.CreateUser(window, apiBase, Api.NewUser(studentId, password, role), token.value, created);
      if r.Failure? {
        window.Alert();
        return;
      }
      showAddModal := false;
      studentId := "";
      password := "";
      role := DEFAULT_ROLE;
      FetchUsers(refetch);
    }

    /**
     * `handleDeleteUser`. With no selected user nothing at all happens. Then
     * the token guard. A success closes the modal and clears the selection
     * before reloading; a failure alerts and keeps both.
     */
    method HandleDeleteUser(deleted: Response<()>, refetch: Response<seq<User>>)
      modifies this`users, this`loading, this`showDeleteModal, this`selectedUser
      modifies window`history, window`sent, window`alerts
      ensures old(selectedUser).None? ==>
                && window.history == old(window.history) && window.sent == old(window.sent)
                && window.alerts == old(window.alerts)
                && users == old(users) && loading == old(loading)
                && showDeleteModal == old(showDeleteModal) && selectedUser == old(selectedUser)
      ensures old(selectedUser).Some? && !Truthy(old(window.Token())) ==>
                && window.history == old(window.history) + [Session.LOGIN_ROUTE]
                && window.sent == old(window.sent) && window.alerts == old(window.alerts)
                && users == old(users) && loading == old(loading)
                && showDeleteModal == old(showDeleteModal) && selectedUser == old(selectedUser)
      ensures old(selectedUser).Some? && Truthy(old(window.Token())) && deleted.Ok? ==>
                && !showDeleteModal && selectedUser == None
                && window.history == old(window.history)
                && window.sent == old(window.sent) + [Api.DeleteUserRequest(apiBase, old(window.Token()).value, old(selectedUser).value.id),
                                                      Api.UsersRequest(apiBase, old(window.Token()).value)]
                && users == (if refetch.Ok? then refetch.body else old(users)) && !loading
                && window.alerts == old(window.alerts) + (if refetch.Ok? then 0 else 1)
      ensures old(selectedUser).Some? && Truthy(old(window.Token())) && !deleted.Ok? ==>
                && showDeleteModal == old(showDeleteModal) && selectedUser == old(selectedUser)
                && window.history == old(window.history)
                && window.sent == old(window.sent) + [Api.DeleteUserRequest(apiBase, old(window.Token()).value, old(selectedUser).value.id)]
                && users == old(users) && loading == old(loading)
                && window.alerts == old(window.alerts) + 1
    {
      if selectedUser.None? {
        return;
      }
      var token := window.GetItem(TOKEN_KEY);
      if !Truthy(token) {
        window.Push(Session.LOGIN_ROUTE);
        return;
      }
      var r := Api.DeleteUser(window, apiBase, selectedUser.value.id, token.value, deleted);
      if r.Failure? {
        window.Alert();
        return;
      }
      showDeleteModal := false;
      selectedUser := None;
      FetchUsers(refetch);
    }

    /** The row's delete button: select the row and open the confirmation. */
    method AskDelete(user: User)
      modifies this`selectedUser, this`showDeleteModal
      ensures selectedUser == Some(user) && showDeleteModal
    {
      selectedUser := Some(user);
      showDeleteModal := true;
    }

    /** The confirmation's cancel button: close it and forget the selection. */
    method CancelDelete()
      modifies this`selectedUser, this`showDeleteModal
      ensures selectedUser == None && !showDeleteModal
    {
      showDeleteModal := false;
      selectedUser := None;
    }

    /** The Add User button opens the form; its Cancel button closes it, keeping what was typed. */
    method OpenAddModal()
      modifies this`showAddModal
      ensures showAddModal
    {
      showAddModal := true;
    }

    method CancelAdd()
      modifies this`showAddModal
      ensures !showAddModal
    {
      showAddModal := false;
    }
  }
}

=== FILE: wrappers.dfy ===
/** Optional values and results with an error, shared by every module. */
module Wrappers {

  /** A value that may be missing: JavaScript's `null`/`undefined`. */
  datatype Option<+T> = None | Some(value: T) {
    function GetOr(default: T): T {
      if Some? then value else default
    }
  }

  /** The outcome of a call that either returns a value or throws an error. */
  datatype Result<+T, +E> = Success(value: T) | Failure(error: E)
}
